=== FILE: README.md ===
# To-do list store, view and entry form — Dafny model

This project models the core of a browser to-do list written in TypeScript:

- the entry record `LitsItem` (id, text, checked flag, with defaults and accessors);
- the list store `FullList`: an ordered list of entries in add order, mirrored
  into one `localStorage` slot under the key `"myList"` as an array of
  `{_id, _item, _checked}` records, with `addItem`, `removeItem`, `clearList`,
  `save` and `load`;
- the view `ListTemplate`: `clear`, `render` (one row per entry, newest first)
  and the checkbox-change and delete-click handlers of each row;
- the entry-form and clear-button logic of the start-up script: trim the text,
  ignore blank text, derive the next id as `parseInt(last id) + 1` or `1`.

The implementation files (`models/FullList.ts`, `models/ListItem.ts`,
`templates/ListTemplate.ts`, `main.ts`) are not part of this model; the model
follows the behaviour the repository's test suites assert about them, and every
row below cites those tests.

Everything is immutable values and pure functions. A store is
`State(list, slot)` where the slot is `Absent | Malformed | Valid(records)`; JSON
text is not modelled. Errors from `load` are a `Result`. A page is the store
together with the rows on screen. The view's rows are a datatype `Row`
(checkbox id and state, label `htmlFor` and text). In the application a
row's handlers act on the entry object the row was rendered from. The view
handlers `OnCheckboxChange` and `OnDeleteClick` instead address the entry by
position: row `i` is entry `|list| - 1 - i`. The two agree exactly when the
rows on screen are the rendering of the current list (`Application.InStep`).
The page-level handlers `Application.CheckboxChange` and
`Application.DeleteClick` require that, and start-up, submit, the clear
button and both handlers keep it.

Modules: `Wrappers` (Result), `ListItem`, `FullList`, `ListTemplate`,
`EntryForm`, `Application` (the page and the integration flows).

Modelling decisions:

- `load` appends each decoded entry through `addItem`, so each append is
  persisted. The slot is therefore untouched when the stored array is empty.
  The tests cannot distinguish this from appending without saving. With
  this choice `load` keeps memory and slot in agreement whenever they agreed
  before, which `FullList.Load` proves.
- A failed `load` returns only the error, so the caller keeps the store it
  had: the in-memory list is unchanged by a malformed slot.
- The checkbox handler negates the entry's flag (`item.checked = !item.checked`)
  and saves. The browser flips the box before it fires `change`, and
  `ListTemplate.CheckboxTracksBox` shows that the entry then equals the box's
  new state. This is what the tests that set the box and dispatch `change`
  observe.
- `removeItem` is modelled as removing every entry that carries the id. The
  tests cannot tell this apart from removing only the first such entry,
  because every test uses unique ids. On lists with unique ids the two
  readings agree (`FullList.RemoveUnique`).
- Trimming follows `String.prototype.trim`: the white space and line
  terminator code points of section 12.2 and 12.3 of ECMA-262.

## Model

| member | source | states |
|---|---|---|
| ListItem.NewItem | todo-list-typescript-main/src/__tests__/models/ListItem.test.ts:6-21 | the constructor stores exactly the id, text and checked flag it is given, and the defaults are "", "" and false |
| ListItem.DefaultConstructor | todo-list-typescript-main/src/__tests__/models/ListItem.test.ts:6-12 | `new LitsItem()` has id "", text "" and checked false |
| ListItem.SetId | todo-list-typescript-main/src/__tests__/models/ListItem.test.ts:40-44 | the id setter changes the id to the new value and leaves text and flag alone |
| ListItem.SetText | todo-list-typescript-main/src/__tests__/models/ListItem.test.ts:53-62 | the text setter stores the new text verbatim, including the empty string, and leaves id and flag alone |
| ListItem.SetChecked | todo-list-typescript-main/src/__tests__/models/ListItem.test.ts:77-81 | the checked setter changes only the flag |
| ListItem.Toggle | todo-list-typescript-main/src/__tests__/models/ListItem.test.ts:83-86 | negating `checked` flips the flag and keeps id and text |
| ListItem.ToggleTwice | todo-list-typescript-main/src/__tests__/models/ListItem.test.ts:83-89 | negating `checked` twice gives back the original entry |
| ListItem.SetThenGet | todo-list-typescript-main/src/__tests__/models/ListItem.test.ts:94-104 | each getter returns exactly what its setter wrote, with no validation or sanitising of the text (markup, unicode) |
| FullList.Encode | todo-list-typescript-main/src/__tests__/models/FullList.test.ts:201-212 | the persisted array has one record per entry, in list order, with `_id`, `_item`, `_checked` equal to the entry's fields |
| FullList.Decode | todo-list-typescript-main/src/__tests__/models/FullList.test.ts:224-239 | loading rebuilds one entry per record, in array order, with the record's id, text and checked flag |
| FullList.DecodeEncode | todo-list-typescript-main/src/__tests__/models/FullList.test.ts:305-323 | decoding the saved records reproduces the same (id, text, checked) triples in order |
| FullList.EncodeDecode | todo-list-typescript-main/src/__tests__/models/FullList.test.ts:262-270 | re-encoding loaded entries gives back the stored records |
| FullList.Save | todo-list-typescript-main/src/__tests__/models/FullList.test.ts:214-220 | `save` leaves the list alone and makes the slot the encoding of the list (an empty list persists `[]`) |
| FullList.SaveIdempotent | todo-list-typescript-main/src/__tests__/models/FullList.test.ts:191-220 | saving twice in a row persists the same value as saving once |
| FullList.AddItem | todo-list-typescript-main/src/__tests__/models/FullList.test.ts:70-107 | `addItem` appends: one more entry, the earlier ones unchanged in order, the new one last, and the slot then holds the whole list |
| FullList.CountId | todo-list-typescript-main/src/__tests__/models/FullList.test.ts:111-132 | the number of entries with an id is zero exactly when no entry carries it |
| FullList.RemoveById | todo-list-typescript-main/src/__tests__/models/FullList.test.ts:111-132 | removal drops exactly the entries with that id (length shrinks by their count, every other entry survives) and an unknown id changes nothing |
| FullList.RemoveItem | todo-list-typescript-main/src/__tests__/models/FullList.test.ts:111-157 | `removeItem` filters the id out and saves; an unknown id leaves the list unchanged |
| FullList.RemoveDistributes | todo-list-typescript-main/src/__tests__/models/FullList.test.ts:111-122 | removal commutes with concatenation, so the surviving entries keep their relative order |
| FullList.RemoveUnique | todo-list-typescript-main/src/__tests__/models/FullList.test.ts:111-122 | with unique ids, removing an entry's id deletes that entry and nothing else |
| FullList.ClearList | todo-list-typescript-main/src/__tests__/models/FullList.test.ts:160-188 | `clearList` always yields an empty list and persists the empty array, from any state |
| FullList.SetCheckedAt | todo-list-typescript-main/src/__tests__/models/FullList.test.ts:294-296 | editing one entry's flag and then saving changes that flag only and persists the edited list |
| FullList.ResetMemory | todo-list-typescript-main/src/__tests__/models/FullList.test.ts:314-315 | dropping the in-memory list keeps the persisted slot |
| FullList.AppendAll | todo-list-typescript-main/src/__tests__/models/FullList.test.ts:272-284 | appending decoded entries adds them after the existing ones, and persists when anything was added |
| FullList.Load | todo-list-typescript-main/src/__tests__/models/FullList.test.ts:223-284 | `load` does nothing on an absent slot, fails exactly on a malformed one, and otherwise appends the decoded entries after the current ones; memory and slot agree afterwards whenever they agreed before or a non-empty array was loaded; loading an empty array changes nothing, memory or slot |
| FullList.SaveThenLoadDoubles | todo-list-typescript-main/src/__tests__/models/FullList.test.ts:272-284 | loading right after a save appends a second copy of every entry |
| FullList.PersistResetReload | todo-list-typescript-main/src/__tests__/models/FullList.test.ts:305-323 | after a save, dropping memory and loading restores exactly the saved store |
| FullList.ClearThenLoad | todo-list-typescript-main/src/__tests__/models/FullList.test.ts:288-303 | clearing and then loading leaves the list empty |
| FullList.LoadTwiceDuplicates | todo-list-typescript-main/src/__tests__/models/FullList.test.ts:224-239 | loading a record array into an empty store gives the decoded records; loading again duplicates them |
| ListTemplate.RowOf | todo-list-typescript-main/src/__tests__/templates/ListTemplate.test.ts:171-222 | a row has checkbox id = label `htmlFor` = entry id, checkbox state = entry flag, label text = entry text verbatim |
| ListTemplate.Clear | todo-list-typescript-main/src/__tests__/templates/ListTemplate.test.ts:62-88 | `clear` leaves the container with no rows, whatever it held, including when already empty |
| ListTemplate.Render | todo-list-typescript-main/src/__tests__/templates/ListTemplate.test.ts:90-156 | `render` gives one row per entry, row i showing entry |list|-1-i: the list in reverse, newest first |
| ListTemplate.RenderInto | todo-list-typescript-main/src/__tests__/templates/ListTemplate.test.ts:126-141 | rendering into a container that already holds rows replaces them: the row count is the list length, not the sum |
| ListTemplate.RenderConcat | todo-list-typescript-main/src/__tests__/templates/ListTemplate.test.ts:143-156 | the rows of `a + b` are the rows of `b` followed by those of `a` |
| ListTemplate.NewestFirst | todo-list-typescript-main/src/__tests__/templates/ListTemplate.test.ts:143-156 | the entry added last is shown in row 0, above the rows of the earlier entries |
| ListTemplate.OnCheckboxChange | todo-list-typescript-main/src/__tests__/templates/ListTemplate.test.ts:239-268 | a checkbox change negates that row's entry flag, keeps every other entry, and saves |
| ListTemplate.CheckboxNeedsNoRerender | todo-list-typescript-main/src/__tests__/templates/ListTemplate.test.ts:239-254 | after a change, the rows of the new list differ from the shown rows only in that row's checkbox state |
| ListTemplate.CheckboxTracksBox | todo-list-typescript-main/src/__tests__/templates/ListTemplate.test.ts:303-325 | when the box was in step with its entry, after each change the entry's flag equals the box's new state |
| ListTemplate.CheckboxTwice | todo-list-typescript-main/src/__tests__/templates/ListTemplate.test.ts:313-320 | two changes on a row give back the original list |
| ListTemplate.OnDeleteClick | todo-list-typescript-main/src/__tests__/templates/ListTemplate.test.ts:270-301 | the delete button removes the row's id, saves and re-renders; with unique ids exactly that entry goes and one row fewer is shown |
| Application.CheckboxChange | todo-list-typescript-main/src/__tests__/templates/ListTemplate.test.ts:239-268 | on a page whose rows render its list, a checkbox click acts on the entry row i was rendered from: its flag becomes the box's new state, every other entry is kept, the store is saved, and the rows still render the list without a re-render |
| Application.DeleteClick | todo-list-typescript-main/src/__tests__/templates/ListTemplate.test.ts:270-301 | on a page whose rows render its list, a delete click removes the id that row i shows, saves and re-renders, so the page stays in step; with unique ids one row fewer is shown |
| EntryForm.TrimStart | todo-list-typescript-main/src/__tests__/integration/main.test.ts:148-156 | leading white space is removed and nothing else: the result is a suffix starting with a visible character |
| EntryForm.TrimEnd | todo-list-typescript-main/src/__tests__/integration/main.test.ts:148-156 | trailing white space is removed and nothing else: the result is a prefix ending with a visible character |
| EntryForm.Trim | todo-list-typescript-main/src/__tests__/integration/main.test.ts:148-186 | the trimmed text is empty exactly when the input is blank, and otherwise starts and ends with visible characters |
| EntryForm.TrimFramed | todo-list-typescript-main/src/__tests__/integration/main.test.ts:148-156 | text framed by white space trims to the framed text |
| EntryForm.TrimIdempotent | todo-list-typescript-main/src/__tests__/integration/main.test.ts:148-156 | trimming twice is trimming once |
| EntryForm.TrimExample | todo-list-typescript-main/src/__tests__/integration/main.test.ts:152-155 | "  Task with spaces  " trims to "Task with spaces" |
| EntryForm.ParseDecimal | todo-list-typescript-main/src/__tests__/integration/main.test.ts:134-135 | `parseInt` on a digit string of length k gives a number below 10^k, and at least 10^(k-1) when the first digit is not `0` |
| EntryForm.NatToString | todo-list-typescript-main/src/__tests__/integration/main.test.ts:138 | `toString` of a number gives a digit string with no leading zero (except "0"), whose length k is the number's decimal width: 10^(k-1) <= n < 10^k for k > 1, n < 10 for k = 1 |
| EntryForm.DigitTable | todo-list-typescript-main/src/__tests__/integration/main.test.ts:134-138 | the digits 0..9 are written as the glyphs "0".."9" in that order and read back as their values, and 10 is written and read as "10" |
| EntryForm.NatToStringSnoc | todo-list-typescript-main/src/__tests__/integration/main.test.ts:134-138 | a number of two or more digits is written as its leading part followed by its last digit, so with the digit table every number gets its decimal string |
| EntryForm.ParseSnoc | todo-list-typescript-main/src/__tests__/integration/main.test.ts:134-135 | reading one more digit gives ten times the value so far plus that digit, so every digit string reads as its decimal value |
| EntryForm.TwoDigitExamples | todo-list-typescript-main/src/__tests__/integration/main.test.ts:134-138 | 11, 12 and 42 are written "11", "12", "42" and read back digit by digit |
| EntryForm.ParseLeadingZero | todo-list-typescript-main/src/__tests__/integration/main.test.ts:134-135 | `parseInt` ignores a leading zero |
| EntryForm.ParseNatToString | todo-list-typescript-main/src/__tests__/integration/main.test.ts:188-212 | `parseInt` reads back the id `toString` wrote |
| EntryForm.NatToStringInjective | todo-list-typescript-main/src/__tests__/integration/main.test.ts:188-212 | different numbers give different id strings |
| EntryForm.NextId | todo-list-typescript-main/src/__tests__/integration/main.test.ts:188-212 | the generated id is positive and, on ascending ids, above every id in the list |
| EntryForm.AscendingUnique | todo-list-typescript-main/src/__tests__/integration/main.test.ts:359-383 | ascending numeric ids are unique ids |
| EntryForm.RemovePreservesAscending | todo-list-typescript-main/src/__tests__/integration/main.test.ts:359-383 | removing by id keeps ids ascending |
| EntryForm.Submit | todo-list-typescript-main/src/__tests__/integration/main.test.ts:122-186 | a blank entry changes nothing, whatever the list holds; otherwise one unchecked entry with the trimmed text and id `toString(NextId)` is appended and persisted |
| EntryForm.SubmitPreservesAscending | todo-list-typescript-main/src/__tests__/integration/main.test.ts:359-383 | ids generated by the form keep ids ascending and therefore unique |
| Application.Startup | todo-list-typescript-main/src/__tests__/integration/main.test.ts:104-119 | start-up load then render: a malformed slot fails, an absent one gives an empty page, and a record array gives list length = row count = record count; a started page's rows render its list, and the persisted records stay in the slot, in agreement with memory |
| Application.SubmitEntry | todo-list-typescript-main/src/__tests__/integration/main.test.ts:122-186 | a non-blank submit keeps every earlier entry, appends one entry with id `toString(NextId)` and re-renders with the new entry (trimmed, unchecked) in row 0; a blank one changes nothing, whatever the list holds; the store is exactly the form's `Submit`, and a page in step stays in step |
| Application.ClearButton | todo-list-typescript-main/src/__tests__/integration/main.test.ts:248-292 | clear then view clear leaves list and rows empty and persists `[]`, from any state, leaving the page in step |
| Application.NextSequential | todo-list-typescript-main/src/__tests__/integration/main.test.ts:188-212 | on ids "1".."n" the next id is n + 1 |
| Application.SubmitSequential | todo-list-typescript-main/src/__tests__/integration/main.test.ts:188-212 | a non-blank submit on ids "1".."n" adds id "n+1" |
| Application.SubmitAll | todo-list-typescript-main/src/__tests__/integration/main.test.ts:340-357 | repeated submits keep ascending ids ascending |
| Application.SubmitAllGrows | todo-list-typescript-main/src/__tests__/integration/main.test.ts:340-357 | N non-blank submits append N entries and keep the earlier ones |
| Application.RapidAdditions | todo-list-typescript-main/src/__tests__/integration/main.test.ts:340-357 | N non-blank submits on sequential ids give sequential ids, N more entries and as many rows |
| Application.SequentialUnique | todo-list-typescript-main/src/__tests__/templates/ListTemplate.test.ts:376-390 | sequentially generated ids are all distinct, so equal texts still get distinct ids |
| Application.ConsecutiveIds | todo-list-typescript-main/src/__tests__/integration/main.test.ts:188-212 | three submits after a clear give ids "1", "2", "3" |
| Application.ThreeTasks | todo-list-typescript-main/src/__tests__/integration/main.test.ts:359-383 | adding entries 1, 2, 3 to an emptied store gives exactly those three entries in order |
| Application.MixedFromThree | todo-list-typescript-main/src/__tests__/integration/main.test.ts:359-383 | from entries 1, 2, 3: remove 2, add 4, check the first: ids 1, 3, 4 in order, persisted, three rows |
| Application.MixedOperations | todo-list-typescript-main/src/__tests__/integration/main.test.ts:359-383 | add 1, 2, 3, remove 2, add 4, check the first: ids 1, 3, 4 in order, persisted, three rows |
| Application.NextIdAfterRemoval | todo-list-typescript-main/src/__tests__/integration/main.test.ts:359-383 | after entries 1 and 3 remain the form generates id 4 |
| Application.DeleteNewestRow | todo-list-typescript-main/src/__tests__/templates/ListTemplate.test.ts:270-301 | two entries are shown newest first; deleting row 0 leaves one entry and one row showing the older text |
| Application.ReloadKeepsEntries | todo-list-typescript-main/src/__tests__/integration/main.test.ts:317-338 | after three adds, a reload restores the same texts and checked flags in the same order |

## Left out

- DOM nodes, `innerHTML`/`textContent` mechanics and event dispatch: rows are values and handlers are store transitions.
- Static markup and accessibility attributes: the `item` class of a row, the checkbox `tabIndex` 0, the delete button's `button` class and `x` text, `maxlength`, `aria-label`, titles and the off-screen headings. They are constants and carry no state.
- The view's construction-time error when `#listItems` is missing: the container is assumed present, as every test sets it up first.
- Clicks on rows that no longer render the current list: the page-level handlers require the rows to be in step with the list, which every page operation keeps. The view handlers on their own address the entry by position, so on stale rows (an entry added without a re-render) they would act on a different entry than the one the row captured.
- The singleton `instance` machinery: one store value is passed explicitly. The private-field reset `fullList['_list'] = []` is `FullList.ResetMemory`.
- `localStorage` and JSON text: the slot is abstract, and "malformed" is a constructor. A stored empty string, which `getItem(...) || null` would read as absent, is never produced by `save`.
- `instanceof LitsItem` checks on loaded entries: entries are values.
- Form `preventDefault` and Enter-key submission: they assert nothing about state.
- `parseInt` on ids that are not decimal digit strings (`NaN`, trailing junk, leading spaces) is outside the model: id generation requires the last id to be a digit string.
- Object identity: the store holds references to `LitsItem` objects, so the caller's object is the stored one (FullList.test.ts:77 uses `toBe(item)`) and a checkbox change is visible through the caller's reference (ListTemplate.test.ts:253 and 316-324). Entries here are values, so when one object is added twice and its checkbox is changed, the source flips both entries while the model flips only the one at the row's index.
- Strings are sequences of Unicode scalar values, not UTF-16 code units: a text holding a lone surrogate cannot be represented, and lengths count code points rather than code units.
- `parseInt` and `toString` precision loss for ids above 2^53 is not modelled: numbers are unbounded.
- EntryForm.NextId: its contract states freshness (positive, above every id of an ascending list) rather than the exact `last + 1`. The exact values are stated by `Application.NextSequential`, `Application.ConsecutiveIds` and `Application.NextIdAfterRemoval`.

=== FILE: application.dfy ===
/** The page as a whole: the store together with the rows currently shown,
    and the flows the start-up script wires together (load and first render,
    form submit, the clear button), with the user scenarios of the
    application's integration tests. */
module Application {
  import opened Wrappers
  import opened ListItem
  import opened FullList
  import opened ListTemplate
  import opened EntryForm

  /** The store and the rows of the `#listItems` container. */
  datatype Page = Page(store: State, rows: seq<Row>)

  /** The rows on screen are the rendering of the current list. Each row's
      handlers act on the entry the row was rendered from; while the page is
      in step, that entry is the one at the row's position in the list. */
  predicate InStep(p: Page) {
    p.rows == Render(p.store.list)
  }

  /** Page start-up: a fresh empty store loads the persisted slot, then the
      list is rendered. A malformed slot stops start-up with the error. */
  function Startup(slot: Stored): (r: Result<Page, LoadError>)
    ensures r.Err? <==> slot.Malformed?
    ensures slot.Absent? ==> r == Ok(Page(State([], Absent), []))
    ensures slot.Valid? ==>
      && r.Ok?
      && r.value.store.list == Decode(slot.records)
      && |r.value.store.list| == |r.value.rows| == |slot.records|
      && r.value.rows == Render(r.value.store.list)
    ensures r.Ok? ==> InStep(r.value)
    ensures slot.Valid? ==> r.Ok? && r.value.store.slot == slot && Consistent(r.value.store)
  {
    match Load(State([], slot))
    case Err(e) => Err(e)
    case Ok(s) => Ok(Page(s, Render(s.list)))
  }

  /** Form submit: a non-blank entry is added and the list re-rendered; a
      blank one changes nothing. */
  function SubmitEntry(p: Page, input: string): (r: Page)
    requires !AllWhitespace(input) ==> CanGenerateId(p.store.list)
    ensures AllWhitespace(input) ==> r == p
    ensures !AllWhitespace(input) ==>
      && |r.store.list| == |p.store.list| + 1
      && r.rows == Render(r.store.list)
      && r.rows[0].labelText == Trim(input)
      && !r.rows[0].checked
      && Consistent(r.store)
      && r.store.list[..|p.store.list|] == p.store.list
      && r.store.list[|p.store.list|].id == NatToString(NextId(p.store.list))
    ensures r.store == Submit(p.store, input)
    ensures InStep(p) ==> InStep(r)
  {
    var s := Submit(p.store, input);
    if AllWhitespace(input) then p
    else
      assert s.list == p.store.list + [s.list[|p.store.list|]];
      Page(s, Render(s.list))
  }

  /** The clear button: `clearList` and then the view's `clear`. */
  function ClearButton(p: Page): (r: Page)
    ensures r.store.list == [] && r.rows == []
    ensures r.store.slot == Valid([])
    ensures Consistent(r.store)
    ensures InStep(r)
  {
    Page(ClearList(p.store), Clear(p.rows))
  }

  /** A click on row `i`'s checkbox: the browser flips the box, then the
      handler negates the flag of the entry the row was rendered from and
      saves. The page stays in step without a re-render. */
  function CheckboxChange(p: Page, i: nat): (r: Page)
    requires InStep(p) && i < |p.rows|
    ensures var k := |p.store.list| - 1 - i;
      && |r.store.list| == |p.store.list|
      && RowOf(p.store.list[k]) == p.rows[i]
      && r.store.list[k] == Toggle(p.store.list[k])
      && r.store.list[k].id == p.rows[i].checkboxId
      && r.store.list[k].checked == !p.rows[i].checked
      && (forall j :: 0 <= j < |p.store.list| && j != k ==> r.store.list[j] == p.store.list[j])
    ensures Consistent(r.store)
    ensures InStep(r)
  {
    CheckboxNeedsNoRerender(p.store, i);
    Page(OnCheckboxChange(p.store, i), p.rows[i := p.rows[i].(checked := !p.rows[i].checked)])
  }

  /** Row `i` of a rendering shows the id of entry `|list| - 1 - i`. */
  lemma RowShowsEntry(list: seq<Item>, i: nat)
    requires i < |Render(list)|
    ensures i < |list| && Render(list)[i].checkboxId == list[|list| - 1 - i].id
  {
  }

  /** A click on row `i`'s delete button: the id the row shows is removed
      from the store and the list is rendered again. */
  function DeleteClick(p: Page, i: nat): (r: Page)
    requires InStep(p) && i < |p.rows|
    ensures r.store.list == RemoveById(p.store.list, p.rows[i].checkboxId)
    ensures |r.store.list| < |p.store.list|
    ensures UniqueIds(p.store.list) ==> |r.rows| == |p.rows| - 1
    ensures Consistent(r.store)
    ensures InStep(r)
  {
    var id := p.rows[i].checkboxId;
    var s := RemoveItem(p.store, id);
    assert |s.list| < |p.store.list| && (UniqueIds(p.store.list) ==> |s.list| == |p.rows| - 1) by {
      RowShowsEntry(p.store.list, i);
      var k := |p.store.list| - 1 - i;
      assert p.store.list[k] in p.store.list;
      if UniqueIds(p.store.list) {
        RemoveUnique(p.store.list, k);
      }
    }
    Page(s, Render(s.list))
  }

  /** Ids "1", "2", ... in list order: what the form produces from an empty
      list when nothing is removed. */
  predicate SequentialIds(list: seq<Item>) {
    forall k :: 0 <= k < |list| ==> list[k].id == NatToString(k + 1)
  }

  /** On sequential ids the form's next id is the next number in line. */
  lemma NextSequential(list: seq<Item>)
    requires SequentialIds(list)
    ensures CanGenerateId(list) && NextId(list) == |list| + 1
  {
    var n := |list|;
    if n > 0 {
      ParseNatToString(n);
      assert list[n - 1].id == NatToString(n);
    }
  }

  /** A non-blank submit keeps the ids sequential. */
  lemma SubmitSequential(s: State, input: string)
    requires SequentialIds(s.list) && !AllWhitespace(input)
    ensures CanGenerateId(s.list)
    ensures SequentialIds(Submit(s, input).list)
  {
    NextSequential(s.list);
    var n := |s.list|;
    var r := Submit(s, input);
    assert |r.list| == n + 1 && r.list[..n] == s.list;
    assert r.list[n].id == NatToString(n + 1);
    forall k | 0 <= k < n + 1 ensures r.list[k].id == NatToString(k + 1) {
      if k < n { assert r.list[k] == s.list[k]; }
    }
  }

  /** Several form submits in a row, without rendering in between. */
  function SubmitAll(s: State, texts: seq<string>): (r: State)
    requires CanGenerateId(s.list)
    ensures CanGenerateId(r.list)
    ensures IdsAscending(s.list) ==> IdsAscending(r.list)
    decreases |texts|
  {
    if texts == [] then s
    else
      var s' := Submit(s, texts[0]);
      assert IdsAscending(s.list) ==> IdsAscending(s'.list) by {
        if IdsAscending(s.list) { SubmitPreservesAscending(s, texts[0]); }
      }
      SubmitAll(s', texts[1..])
  }

  /** None of the texts is blank. */
  predicate NonBlank(texts: seq<string>) {
    forall k :: 0 <= k < |texts| ==> !AllWhitespace(texts[k])
  }

  /** Non-blank submits each append one entry and keep the earlier ones. */
  lemma {:induction false} SubmitAllGrows(s: State, texts: seq<string>)
    requires CanGenerateId(s.list)
    requires NonBlank(texts)
    ensures |SubmitAll(s, texts).list| == |s.list| + |texts|
    ensures SubmitAll(s, texts).list[..|s.list|] == s.list
    decreases |texts|
  {
    if texts != [] {
      var s' := Submit(s, texts[0]);
      assert NonBlank(texts[1..]) by {
        forall k | 0 <= k < |texts[1..]| ensures !AllWhitespace(texts[1..][k]) {
          assert texts[1..][k] == texts[k + 1];
        }
      }
      SubmitAllGrows(s', texts[1..]);
      var r := SubmitAll(s', texts[1..]);
      assert r.list[..|s'.list|] == s'.list;
      assert r.list[..|s.list|] == r.list[..|s'.list|][..|s.list|];
    }
  }

  /** N non-blank submits on an emptied store give N entries with ids "1" to
      "N", all distinct, and rendering shows N rows. */
  lemma {:induction false} RapidAdditions(s: State, texts: seq<string>)
    requires SequentialIds(s.list)
    requires NonBlank(texts)
    ensures CanGenerateId(s.list)
    ensures |SubmitAll(s, texts).list| == |s.list| + |texts|
    ensures SequentialIds(SubmitAll(s, texts).list)
    ensures |Render(SubmitAll(s, texts).list)| == |s.list| + |texts|
    decreases |texts|
  {
    NextSequential(s.list);
    SubmitAllGrows(s, texts);
    if texts != [] {
      SubmitSequential(s, texts[0]);
      assert NonBlank(texts[1..]) by {
        forall k | 0 <= k < |texts[1..]| ensures !AllWhitespace(texts[1..][k]) {
          assert texts[1..][k] == texts[k + 1];
        }
      }
      RapidAdditions(Submit(s, texts[0]), texts[1..]);
    }
  }

  /** Sequential ids are distinct. */
  lemma SequentialUnique(list: seq<Item>)
    requires SequentialIds(list)
    ensures UniqueIds(list)
  {
    forall i, j | 0 <= i < j < |list| ensures list[i].id != list[j].id {
      if list[i].id == list[j].id {
        NatToStringInjective(i + 1, j + 1);
      }
    }
  }

  /** Three submits after a clear give the ids "1", "2" and "3". */
  lemma ConsecutiveIds(s: State)
    ensures var r := SubmitAll(ClearList(s), ["Task 1", "Task 2", "Task 3"]);
      |r.list| == 3 && r.list[0].id == "1" && r.list[1].id == "2" && r.list[2].id == "3"
  {
    var texts := ["Task 1", "Task 2", "Task 3"];
    assert NonBlank(texts) by {
      forall k | 0 <= k < |texts| ensures !AllWhitespace(texts[k]) {
        assert !IsWhitespace(texts[k][0]);
      }
    }
    RapidAdditions(ClearList(s), texts);
    var r := SubmitAll(ClearList(s), texts);
    assert r.list[0].id == NatToString(1) && r.list[1].id == NatToString(2) && r.list[2].id == NatToString(3);
    assert NatToString(1) == "1" && NatToString(2) == "2" && NatToString(3) == "3" by {
      DigitTable();
      assert "0123456789"[1] == '1' && "0123456789"[2] == '2' && "0123456789"[3] == '3';
    }
  }

  /** The store after adding entries 1, 2 and 3 to an emptied store. */
  lemma ThreeTasks(s: State)
    ensures AddItem(AddItem(AddItem(ClearList(s), NewItem("1", "Task 1")),
                            NewItem("2", "Task 2")), NewItem("3", "Task 3")).list
      == [Item("1", "Task 1", false), Item("2", "Task 2", false), Item("3", "Task 3", false)]
  {
  }

  /** Removing id 2 from entries 1, 2, 3 leaves 1 and 3. */
  lemma RemoveMiddle()
    ensures RemoveById([Item("1", "Task 1", false), Item("2", "Task 2", false), Item("3", "Task 3", false)], "2")
      == [Item("1", "Task 1", false), Item("3", "Task 3", false)]
  {
  }

  /** From entries 1, 2, 3 (the store `s1`): remove 2, add 4, check the
      first entry, render: the ids are 1, 3, 4 in that order and three rows
      are shown. */
  lemma MixedFromThree(s1: State)
    requires s1.list == [Item("1", "Task 1", false), Item("2", "Task 2", false), Item("3", "Task 3", false)]
    ensures var s4 := SetCheckedAt(AddItem(RemoveItem(s1, "2"), NewItem("4", "Task 4")), 0, true);
      && s4.list == [Item("1", "Task 1", true), Item("3", "Task 3", false), Item("4", "Task 4", false)]
      && Consistent(s4)
      && |Render(s4.list)| == 3
  {
    var t1, t3, t4 := Item("1", "Task 1", false), Item("3", "Task 3", false), Item("4", "Task 4", false);
    var s2 := RemoveItem(s1, "2");
    assert s2.list == [t1, t3] by {
      RemoveMiddle();
    }
    var s3 := AddItem(s2, NewItem("4", "Task 4"));
    assert s3.list == [t1, t3, t4] by {
      assert s3.list[..2] == [t1, t3];
    }
    var s4 := SetCheckedAt(s3, 0, true);
    assert s4.list == [Item("1", "Task 1", true), t3, t4] by {
      assert s4.list[1] == t3 && s4.list[2] == t4;
    }
  }

  /** The whole mixed sequence from an emptied store: add 1, 2, 3, remove 2,
      add 4, check the first entry. */
  lemma MixedOperations(s: State)
    ensures
      var s1 := AddItem(AddItem(AddItem(ClearList(s), NewItem("1", "Task 1")),
                                NewItem("2", "Task 2")), NewItem("3", "Task 3"));
      var s4 := SetCheckedAt(AddItem(RemoveItem(s1, "2"), NewItem("4", "Task 4")), 0, true);
      && s4.list == [Item("1", "Task 1", true), Item("3", "Task 3", false), Item("4", "Task 4", false)]
      && Consistent(s4)
      && |Render(s4.list)| == 3
  {
    ThreeTasks(s);
    var s1 := AddItem(AddItem(AddItem(ClearList(s), NewItem("1", "Task 1")),
                              NewItem("2", "Task 2")), NewItem("3", "Task 3"));
    MixedFromThree(s1);
  }

  /** After entries 1 and 3 remain, the form picks 4 as the next id: ids
      generated by the form stay above every id still present. */
  lemma NextIdAfterRemoval()
    ensures NextId([Item("1", "Task 1", false), Item("3", "Task 3", false)]) == 4
  {
    assert ParseDecimal("3") == 3;
  }

  /** Two entries rendered newest first; deleting row 0 removes the newest
      entry and the re-render shows the older one alone. */
  lemma DeleteNewestRow(s: State)
    ensures
      var st := AddItem(AddItem(ClearList(s), NewItem("1", "Buy milk")), NewItem("2", "Walk dog"));
      var rows := Render(st.list);
      var after := OnDeleteClick(st, 0);
      && |rows| == 2 && rows[0].labelText == "Walk dog" && rows[1].labelText == "Buy milk"
      && |after.0.list| == 1 && |after.1| == 1 && after.1[0].labelText == "Buy milk"
  {
    var st := AddItem(AddItem(ClearList(s), NewItem("1", "Buy milk")), NewItem("2", "Walk dog"));
    assert st.list == [Item("1", "Buy milk", false), Item("2", "Walk dog", false)];
    assert UniqueIds(st.list);
  }

  /** After a reload (memory dropped, slot kept) the three saved entries come
      back with the same text and checked flags, in the same order. */
  lemma ReloadKeepsEntries(s: State)
    ensures
      var st := AddItem(AddItem(AddItem(ClearList(s), NewItem("1", "Task 1", false)),
                                NewItem("2", "Task 2", true)), NewItem("3", "Task 3", false));
      && Load(ResetMemory(st)) == Ok(st)
      && |st.list| == 3
      && st.list[0].item == "Task 1" && !st.list[0].checked
      && st.list[1].item == "Task 2" && st.list[1].checked
      && st.list[2].item == "Task 3" && !st.list[2].checked
  {
    var st := AddItem(AddItem(AddItem(ClearList(s), NewItem("1", "Task 1", false)),
                              NewItem("2", "Task 2", true)), NewItem("3", "Task 3", false));
    PersistResetReload(st);
    assert st.list == [Item("1", "Task 1", false), Item("2", "Task 2", true), Item("3", "Task 3", false)];
  }
}

=== FILE: entry_form.dfy ===
/** The entry-form logic of the application's start-up script: the typed text
    is trimmed, empty or blank text is ignored, and a new entry gets the id
    `parseInt(last.id) + 1`, or `1` when the list is empty.

    Ids are modelled as decimal digit strings: `parseInt` on other text is
    outside this model. */
module EntryForm {
  import opened ListItem
  import opened FullList

  /** The characters `String.prototype.trim` removes: the white space and
      line terminator code points of section 12.2 and 12.3 of ECMA-262. */
  predicate IsWhitespace(c: char) {
    || c == '\t' || c == '\n' || c == '\U{000B}' || c == '\U{000C}' || c == '\r'
    || c == ' ' || c == '\U{00A0}' || c == '\U{1680}'
    || ('\U{2000}' <= c <= '\U{200A}')
    || c == '\U{2028}' || c == '\U{2029}' || c == '\U{202F}' || c == '\U{205F}'
    || c == '\U{3000}' || c == '\U{FEFF}'
  }

  predicate AllWhitespace(s: string) {
    forall i :: 0 <= i < |s| ==> IsWhitespace(s[i])
  }

  /** The text with its leading white space removed. */
  function TrimStart(s: string): (r: string)
    ensures |r| <= |s| && r == s[|s| - |r|..]
    ensures forall i :: 0 <= i < |s| - |r| ==> IsWhitespace(s[i])
    ensures r == [] || !IsWhitespace(r[0])
    decreases |s|
  {
    if |s| > 0 && IsWhitespace(s[0]) then TrimStart(s[1..]) else s
  }

  /** The text with its trailing white space removed. */
  function TrimEnd(s: string): (r: string)
    ensures |r| <= |s| && r == s[..|r|]
    ensures forall i :: |r| <= i < |s| ==> IsWhitespace(s[i])
    ensures r == [] || !IsWhitespace(r[|r| - 1])
    decreases |s|
  {
    if |s| > 0 && IsWhitespace(s[|s| - 1]) then TrimEnd(s[..|s| - 1]) else s
  }

  /** `value.trim()`. The result is empty exactly when the text is blank, and
      otherwise starts and ends with a non-white-space character. */
  function Trim(s: string): (r: string)
    ensures |r| <= |s|
    ensures r == [] <==> AllWhitespace(s)
    ensures r != [] ==> !IsWhitespace(r[0]) && !IsWhitespace(r[|r| - 1])
  {
    var t := TrimStart(s);
    var r := TrimEnd(t);
    assert r == [] ==> t == [];
    r
  }

  /** Leading white space in front of text that starts with a visible
      character is exactly what `TrimStart` drops. */
  lemma {:induction false} TrimStartOf(w: string, u: string)
    requires AllWhitespace(w)
    requires u == [] || !IsWhitespace(u[0])
    ensures TrimStart(w + u) == u
    decreases |w|
  {
    if w == [] {
      assert w + u == u;
    } else {
      assert (w + u)[1..] == w[1..] + u;
      TrimStartOf(w[1..], u);
    }
  }

  /** Trailing white space behind text that ends with a visible character is
      exactly what `TrimEnd` drops. */
  lemma {:induction false} TrimEndOf(u: string, w: string)
    requires AllWhitespace(w)
    requires u == [] || !IsWhitespace(u[|u| - 1])
    ensures TrimEnd(u + w) == u
    decreases |w|
  {
    if w == [] {
      assert u + w == u;
    } else {
      assert (u + w)[..|u + w| - 1] == u + w[..|w| - 1];
      TrimEndOf(u, w[..|w| - 1]);
    }
  }

  /** `Trim` removes white space from both ends and nothing else: a text
      framed by blank runs trims to the framed text. */
  lemma TrimFramed(w1: string, t: string, w2: string)
    requires AllWhitespace(w1) && AllWhitespace(w2)
    requires t != [] ==> !IsWhitespace(t[0]) && !IsWhitespace(t[|t| - 1])
    ensures Trim(w1 + t + w2) == t
  {
    if t == [] {
      assert w1 + t + w2 == w1 + w2;
      assert AllWhitespace(w1 + w2) by {
        forall i | 0 <= i < |w1 + w2| ensures IsWhitespace((w1 + w2)[i]) {
          if i >= |w1| { assert (w1 + w2)[i] == w2[i - |w1|]; }
        }
      }
    } else {
      assert w1 + t + w2 == w1 + (t + w2);
      TrimStartOf(w1, t + w2);
      TrimEndOf(t, w2);
    }
  }

  /** Trimming twice is trimming once. */
  lemma TrimIdempotent(s: string)
    ensures Trim(Trim(s)) == Trim(s)
  {
    var t := Trim(s);
    assert t + [] == t && [] + t == t;
    TrimFramed([], t, []);
    assert [] + t + [] == t;
  }

  /** The example the form test uses. */
  lemma TrimExample()
    ensures Trim("  Task with spaces  ") == "Task with spaces"
  {
    assert "  Task with spaces  " == "  " + "Task with spaces" + "  ";
    TrimFramed("  ", "Task with spaces", "  ");
  }

  predicate IsDigit(c: char) {
    '0' <= c <= '9'
  }

  /** A non-empty string of decimal digits, the id shape the model covers. */
  predicate IsDecimal(s: string) {
    |s| > 0 && forall i :: 0 <= i < |s| ==> IsDigit(s[i])
  }

  function DigitValue(c: char): (d: nat)
    requires IsDigit(c)
    ensures d < 10
  {
    (c as int) - ('0' as int)
  }

  function DigitChar(d: nat): (c: char)
    requires d < 10
    ensures IsDigit(c) && DigitValue(c) == d
  {
    (('0' as int) + d) as char
  }

  /** `parseInt(s)` on a decimal digit string (leading zeros allowed). A
      string of k digits without a leading zero reads as a number with k
      decimal digits. */
  function ParseDecimal(s: string): (n: nat)
    requires IsDecimal(s)
    ensures n < Pow10(|s|)
    ensures |s| > 1 && s[0] != '0' ==> Pow10(|s| - 1) <= n
    decreases |s|
  {
    if |s| == 1 then DigitValue(s[0])
    else
      var p := s[..|s| - 1];
      assert p[0] == s[0];
      10 * ParseDecimal(p) + DigitValue(s[|s| - 1])
  }

  function Pow10(k: nat): (p: nat)
    ensures p >= 1
  {
    if k == 0 then 1 else 10 * Pow10(k - 1)
  }

  /** `n.toString()` for a natural number: its decimal digits, with no
      leading zero except for `0` itself. */
  function NatToString(n: nat): (s: string)
    ensures IsDecimal(s)
    ensures s[0] == '0' ==> n == 0
    ensures n < Pow10(|s|)
    ensures |s| > 1 ==> Pow10(|s| - 1) <= n
    decreases n
  {
    if n < 10 then [DigitChar(n)]
    else
      var h := NatToString(n / 10);
      assert n < 10 * Pow10(|h|);
      assert |h| > 1 ==> 10 * Pow10(|h| - 1) <= n;
      h + [DigitChar(n % 10)]
  }

  /** The digit glyphs in order, and the roll-over to two digits. */
  lemma DigitTable()
    ensures forall d :: 0 <= d < 10 ==> NatToString(d) == ["0123456789"[d]]
    ensures forall d :: 0 <= d < 10 ==> ParseDecimal(["0123456789"[d]]) == d
    ensures NatToString(10) == "10" && ParseDecimal("10") == 10
  {
    forall d | 0 <= d < 10
      ensures NatToString(d) == ["0123456789"[d]]
      ensures ParseDecimal(["0123456789"[d]]) == d
    {
      assert "0123456789"[d] == (('0' as int) + d) as char;
    }
    assert NatToString(1) == "1" && NatToString(0) == "0";
    assert NatToString(10) == NatToString(1) + "0";
  }

  /** Writing a number of two or more digits: its leading part, then its last
      digit. With `DigitTable` this fixes the string of every number by
      induction on its width. */
  lemma NatToStringSnoc(m: nat, d: nat)
    requires m >= 1 && d < 10
    ensures NatToString(10 * m + d) == NatToString(m) + [DigitChar(d)]
  {
    assert (10 * m + d) / 10 == m && (10 * m + d) % 10 == d;
  }

  /** Reading one more digit: ten times the value so far, plus the digit. */
  lemma ParseSnoc(s: string, c: char)
    requires IsDecimal(s) && IsDigit(c)
    ensures IsDecimal(s + [c])
    ensures ParseDecimal(s + [c]) == 10 * ParseDecimal(s) + DigitValue(c)
  {
    assert (s + [c])[..|s|] == s;
  }

  /** Two-digit ids are written and read digit by digit. */
  lemma TwoDigitExamples()
    ensures NatToString(11) == "11" && NatToString(12) == "12" && NatToString(42) == "42"
    ensures ParseDecimal("11") == 11 && ParseDecimal("12") == 12 && ParseDecimal("42") == 42
  {
    DigitTable();
    NatToStringSnoc(1, 1);
    NatToStringSnoc(1, 2);
    NatToStringSnoc(4, 2);
    ParseSnoc("1", '1');
    ParseSnoc("1", '2');
    ParseSnoc("4", '2');
    assert "0123456789"[1] == '1' && "0123456789"[2] == '2' && "0123456789"[4] == '4';
  }

  /** `parseInt` ignores leading zeros. */
  lemma {:induction false} ParseLeadingZero(s: string)
    requires IsDecimal(s)
    ensures IsDecimal("0" + s) && ParseDecimal("0" + s) == ParseDecimal(s)
    decreases |s|
  {
    var z := "0" + s;
    if |s| > 1 {
      var p := s[..|s| - 1];
      assert z[..|z| - 1] == "0" + p;
      ParseLeadingZero(p);
    }
  }

  /** `parseInt` reads back what `toString` wrote. */
  lemma {:induction false} ParseNatToString(n: nat)
    ensures ParseDecimal(NatToString(n)) == n
    decreases n
  {
    if n >= 10 {
      var s := NatToString(n);
      assert s[..|s| - 1] == NatToString(n / 10);
      ParseNatToString(n / 10);
    }
  }

  /** Distinct numbers get distinct id strings. */
  lemma NatToStringInjective(a: nat, b: nat)
    requires NatToString(a) == NatToString(b)
    ensures a == b
  {
    ParseNatToString(a);
    ParseNatToString(b);
  }

  /** The id of an entry, as a number. */
  function IdValue(it: Item): nat
    requires IsDecimal(it.id)
  {
    ParseDecimal(it.id)
  }

  predicate DecimalIds(list: seq<Item>) {
    forall i :: 0 <= i < |list| ==> IsDecimal(list[i].id)
  }

  /** Every id is a decimal numeral, and the numbers strictly increase along
      the list. */
  predicate IdsAscending(list: seq<Item>) {
    && DecimalIds(list)
    && forall i, j :: 0 <= i < j < |list| ==> IdValue(list[i]) < IdValue(list[j])
  }

  /** Ascending ids are unique ids. */
  lemma AscendingUnique(list: seq<Item>)
    requires IdsAscending(list)
    ensures UniqueIds(list)
  {
  }

  /** The form can compute an id: the list is empty or its last id is a
      decimal numeral. */
  predicate CanGenerateId(list: seq<Item>) {
    list == [] || IsDecimal(list[|list| - 1].id)
  }

  /** `list.length ? parseInt(list[list.length - 1].id) + 1 : 1`. The result
      is positive, and on ascending ids it is above every id in the list. */
  function NextId(list: seq<Item>): (n: nat)
    requires CanGenerateId(list)
    ensures n >= 1
    ensures IdsAscending(list) ==> forall i :: 0 <= i < |list| ==> IdValue(list[i]) < n
  {
    if list == [] then 1 else ParseDecimal(list[|list| - 1].id) + 1
  }

  /** An ascending list splits into its first entry, below everything after
      it, and an ascending rest. */
  lemma AscendingUncons(list: seq<Item>)
    requires list != [] && IdsAscending(list)
    ensures IsDecimal(list[0].id) && IdsAscending(list[1..])
    ensures forall y :: y in list[1..] ==> IsDecimal(y.id) && IdValue(list[0]) < IdValue(y)
  {
    var t := list[1..];
    forall i | 0 <= i < |t| ensures IsDecimal(t[i].id) {
      assert t[i] == list[i + 1];
    }
    forall i, j | 0 <= i < j < |t| ensures IdValue(t[i]) < IdValue(t[j]) {
      assert t[i] == list[i + 1] && t[j] == list[j + 1];
    }
    forall y | y in t ensures IsDecimal(y.id) && IdValue(list[0]) < IdValue(y) {
      var m :| 0 <= m < |t| && t[m] == y;
      assert list[m + 1] == y;
    }
  }

  /** An entry below everything in an ascending list extends it in front. */
  lemma AscendingCons(x: Item, u: seq<Item>)
    requires IsDecimal(x.id) && IdsAscending(u)
    requires forall y :: y in u ==> IsDecimal(y.id) && IdValue(x) < IdValue(y)
    ensures IdsAscending([x] + u)
  {
    var r := [x] + u;
    forall i | 0 <= i < |r| ensures IsDecimal(r[i].id) {
      if i > 0 { assert r[i] == u[i - 1]; }
    }
    forall i, j | 0 <= i < j < |r| ensures IdValue(r[i]) < IdValue(r[j]) {
      assert r[j] == u[j - 1] && u[j - 1] in u;
      if i > 0 { assert r[i] == u[i - 1]; }
    }
  }

  /** Removing by id keeps the ids ascending. */
  lemma {:induction false} RemovePreservesAscending(list: seq<Item>, id: string)
    requires IdsAscending(list)
    ensures IdsAscending(RemoveById(list, id))
    decreases |list|
  {
    if list != [] {
      AscendingUncons(list);
      RemovePreservesAscending(list[1..], id);
      if list[0].id != id {
        AscendingCons(list[0], RemoveById(list[1..], id));
      }
    }
  }

  /** An entry above everything in an ascending list extends it at the end. */
  lemma AscendingSnoc(list: seq<Item>, x: Item)
    requires IdsAscending(list) && IsDecimal(x.id)
    requires forall i :: 0 <= i < |list| ==> IdValue(list[i]) < IdValue(x)
    ensures IdsAscending(list + [x])
  {
    var r := list + [x];
    forall i | 0 <= i < |r| ensures IsDecimal(r[i].id) {
      if i < |list| { assert r[i] == list[i]; }
    }
    forall i, j | 0 <= i < j < |r| ensures IdValue(r[i]) < IdValue(r[j]) {
      assert r[i] == list[i];
      if j < |list| { assert r[j] == list[j]; }
    }
  }

  /** The submit handler on the store: trim, ignore blank text, otherwise add
      an unchecked entry with the next id and the trimmed text. */
  function Submit(s: State, input: string): (r: State)
    requires !AllWhitespace(input) ==> CanGenerateId(s.list)
    ensures AllWhitespace(input) ==> r == s
    ensures !AllWhitespace(input) ==>
      && |r.list| == |s.list| + 1
      && r.list[..|s.list|] == s.list
      && r.list[|s.list|].item == Trim(input)
      && !r.list[|s.list|].checked
      && r.list[|s.list|].id == NatToString(NextId(s.list))
      && IsDecimal(r.list[|s.list|].id)
      && IdValue(r.list[|s.list|]) == NextId(s.list)
      && Consistent(r)
    ensures CanGenerateId(s.list) || !AllWhitespace(input) ==> CanGenerateId(r.list)
  {
    var text := Trim(input);
    if text == [] then s
    else
      var n := NextId(s.list);
      ParseNatToString(n);
      var r := AddItem(s, NewItem(NatToString(n), text));
      assert forall i :: 0 <= i < |s.list| ==> r.list[i] == s.list[i];
      r
  }

  /** Ids the form generates keep ascending ids ascending, hence unique. */
  lemma SubmitPreservesAscending(s: State, input: string)
    requires CanGenerateId(s.list) && IdsAscending(s.list)
    ensures IdsAscending(Submit(s, input).list)
    ensures UniqueIds(Submit(s, input).list)
  {
    var r := Submit(s, input);
    if !AllWhitespace(input) {
      var n := |s.list|;
      assert r.list == s.list + [r.list[n]] by {
        assert r.list[..n] == s.list;
      }
      AscendingSnoc(s.list, r.list[n]);
    }
    AscendingUnique(r.list);
  }
}

=== FILE: full_list.dfy ===
/** The list store (`FullList` in the application): an ordered sequence of
    entries in add order, mirrored into one persisted key-value slot.

    The browser's key-value storage is modelled by the single slot the store
    uses, under the fixed key `"myList"`. A persisted value is either absent, text
    that does not parse as the expected array, or an array of records; JSON
    text itself is not modelled. */
module FullList {
  import opened Wrappers
  import opened ListItem

  /** One persisted entry: the JSON object `{_id, _item, _checked}`. */
  datatype Record = Record(storedId: string, storedItem: string, storedChecked: bool)

  /** What `localStorage.getItem("myList")` yields, after parsing. */
  datatype Stored = Absent | Malformed | Valid(records: seq<Record>)

  /** The one failure `load` reports: the stored text is not a record array. */
  datatype LoadError = ParseError

  /** The store: the in-memory list (the `list` getter) and the persisted slot. */
  datatype State = State(list: seq<Item>, slot: Stored)

  function ToRecord(it: Item): Record {
    Record(it.id, it.item, it.checked)
  }

  function FromRecord(r: Record): Item {
    Item(r.storedId, r.storedItem, r.storedChecked)
  }

  /** Serialisation done by `save`: one record per entry, in list order. */
  function Encode(list: seq<Item>): (rs: seq<Record>)
    ensures |rs| == |list|
    ensures forall i :: 0 <= i < |list| ==>
      rs[i].storedId == list[i].id && rs[i].storedItem == list[i].item
      && rs[i].storedChecked == list[i].checked
  {
    seq(|list|, i requires 0 <= i < |list| => ToRecord(list[i]))
  }

  /** Reconstruction done by `load`: one entry per record, in array order. */
  function Decode(rs: seq<Record>): (list: seq<Item>)
    ensures |list| == |rs|
    ensures forall i :: 0 <= i < |rs| ==>
      list[i].id == rs[i].storedId && list[i].item == rs[i].storedItem
      && list[i].checked == rs[i].storedChecked
  {
    seq(|rs|, i requires 0 <= i < |rs| => FromRecord(rs[i]))
  }

  /** Decoding what was encoded gives back the same triples in the same order. */
  lemma DecodeEncode(list: seq<Item>)
    ensures Decode(Encode(list)) == list
  {
  }

  /** Encoding what was decoded gives back the same records. */
  lemma EncodeDecode(rs: seq<Record>)
    ensures Encode(Decode(rs)) == rs
  {
  }

  /** The in-memory list and the persisted slot agree. */
  predicate Consistent(s: State) {
    s.slot == Valid(Encode(s.list))
  }

  /** `save`: write the whole list to the slot; the list itself is untouched. */
  function Save(s: State): (r: State)
    ensures r.list == s.list
    ensures Consistent(r)
  {
    State(s.list, Valid(Encode(s.list)))
  }

  /** `addItem`: append, then save. */
  function AddItem(s: State, it: Item): (r: State)
    ensures |r.list| == |s.list| + 1
    ensures r.list[..|s.list|] == s.list && r.list[|s.list|] == it
    ensures Consistent(r)
  {
    Save(State(s.list + [it], s.slot))
  }

  /** How many entries carry the given id. */
  function CountId(list: seq<Item>, id: string): (n: nat)
    ensures n <= |list|
    ensures n == 0 <==> forall x :: x in list ==> x.id != id
    decreases |list|
  {
    if list == [] then 0
    else (if list[0].id == id then 1 else 0) + CountId(list[1..], id)
  }

  /** Removal of every entry carrying `id`, keeping the others in order. */
  function RemoveById(list: seq<Item>, id: string): (r: seq<Item>)
    ensures |r| == |list| - CountId(list, id)
    ensures forall x :: x in r <==> x in list && x.id != id
    ensures (forall x :: x in list ==> x.id != id) ==> r == list
    decreases |list|
  {
    if list == [] then []
    else if list[0].id == id then RemoveById(list[1..], id)
    else [list[0]] + RemoveById(list[1..], id)
  }

  /** `removeItem(id)`: drop every entry with that id, then save. */
  function RemoveItem(s: State, id: string): (r: State)
    ensures r.list == RemoveById(s.list, id)
    ensures (forall x :: x in s.list ==> x.id != id) ==> r.list == s.list
    ensures Consistent(r)
  {
    Save(State(RemoveById(s.list, id), s.slot))
  }

  /** `clearList`: empty the list and persist the empty array. */
  function ClearList(s: State): (r: State)
    ensures r.list == []
    ensures r.slot == Valid([])
    ensures Consistent(r)
  {
    Save(State([], s.slot))
  }

  /** Editing one entry's `checked` flag in place and then calling `save`,
      the pattern the view's checkbox handler and the application use. */
  function SetCheckedAt(s: State, k: nat, v: bool): (r: State)
    requires k < |s.list|
    ensures |r.list| == |s.list|
    ensures r.list[k].checked == v
    ensures r.list[k].id == s.list[k].id && r.list[k].item == s.list[k].item
    ensures forall j :: 0 <= j < |s.list| && j != k ==> r.list[j] == s.list[j]
    ensures Consistent(r)
  {
    Save(State(s.list[k := SetChecked(s.list[k], v)], s.slot))
  }

  /** Dropping the in-memory list while keeping the persisted slot, as a
      page reload does. */
  function ResetMemory(s: State): (r: State)
    ensures r.list == [] && r.slot == s.slot
  {
    State([], s.slot)
  }

  /** Appending decoded entries one at a time through `addItem`. */
  function AppendAll(s: State, items: seq<Item>): (r: State)
    ensures r.list == s.list + items
    ensures items == [] ==> r == s
    ensures items != [] ==> Consistent(r)
    decreases |items|
  {
    if items == [] then s
    else
      var s' := AddItem(s, items[0]);
      assert s'.list + items[1..] == s.list + items;
      AppendAll(s', items[1..])
  }

  /** `load`: nothing happens when the slot is absent, a malformed value is
      reported as an error, and a record array is appended to whatever is
      already in memory. */
  function Load(s: State): (r: Result<State, LoadError>)
    ensures s.slot.Absent? ==> r == Ok(s)
    ensures r.Err? <==> s.slot.Malformed?
    ensures s.slot.Valid? ==> r.Ok? && r.value.list == s.list + Decode(s.slot.records)
    ensures Consistent(s) ==> r.Ok? && Consistent(r.value)
    ensures s.slot.Valid? && s.slot.records != [] ==> r.Ok? && Consistent(r.value)
    ensures s.slot == Valid([]) ==> r == Ok(s)
  {
    match s.slot
    case Absent => Ok(s)
    case Malformed => Err(ParseError)
    case Valid(rs) => Ok(AppendAll(s, Decode(rs)))
  }

  /** Saving twice in a row writes the same slot as saving once. */
  lemma SaveIdempotent(s: State)
    ensures Save(Save(s)) == Save(s)
  {
  }

  /** Removal on a list with a known first entry. */
  lemma RemoveCons(x: Item, t: seq<Item>, id: string)
    ensures RemoveById([x] + t, id) == (if x.id == id then [] else [x]) + RemoveById(t, id)
  {
    assert ([x] + t)[0] == x;
    assert ([x] + t)[1..] == t;
  }

  /** Removal works entry by entry: it commutes with concatenation, so the
      surviving entries keep their relative order. */
  lemma {:induction false} RemoveDistributes(a: seq<Item>, b: seq<Item>, id: string)
    ensures RemoveById(a + b, id) == RemoveById(a, id) + RemoveById(b, id)
    decreases |a|
  {
    if a == [] {
      assert a + b == b;
    } else {
      var x, t := a[0], a[1..];
      assert a + b == [x] + (t + b) by {
        assert a == [x] + t;
      }
      RemoveDistributes(t, b, id);
      var h := if x.id == id then [] else [x];
      calc {
        RemoveById(a + b, id);
        RemoveById([x] + (t + b), id);
        { RemoveCons(x, t + b, id); }
        h + RemoveById(t + b, id);
        h + (RemoveById(t, id) + RemoveById(b, id));
        (h + RemoveById(t, id)) + RemoveById(b, id);
        { RemoveCons(x, t, id); assert a == [x] + t; }
        RemoveById(a, id) + RemoveById(b, id);
      }
    }
  }

  /** No two entries share an id. The store does not enforce this; the
      callers' id generation does. */
  predicate UniqueIds(list: seq<Item>) {
    forall i, j :: 0 <= i < j < |list| ==> list[i].id != list[j].id
  }

  /** When the id occurs exactly at one position, removal drops that entry
      and nothing else. */
  lemma {:induction false} RemoveUnique(list: seq<Item>, k: nat)
    requires k < |list|
    requires UniqueIds(list)
    ensures RemoveById(list, list[k].id) == list[..k] + list[k + 1..]
  {
    var id := list[k].id;
    assert list == list[..k] + ([list[k]] + list[k + 1..]);
    RemoveDistributes(list[..k], [list[k]] + list[k + 1..], id);
    RemoveDistributes([list[k]], list[k + 1..], id);
    assert forall x :: x in list[..k] ==> x.id != id;
    assert forall x :: x in list[k + 1..] ==> x.id != id;
    assert RemoveById([list[k]], id) == [];
  }

  /** Loading into a store that was just saved appends a second copy of every
      entry: `load` adds to memory instead of replacing it. */
  lemma SaveThenLoadDoubles(s: State)
    ensures Load(Save(s)).Ok?
    ensures Load(Save(s)).value.list == s.list + s.list
    ensures Consistent(Load(Save(s)).value)
  {
    DecodeEncode(s.list);
  }

  /** Round trip: after any save, dropping the in-memory list and loading
      restores exactly the saved store. */
  lemma PersistResetReload(s: State)
    requires Consistent(s)
    ensures Load(ResetMemory(s)) == Ok(s)
  {
    DecodeEncode(s.list);
    var r := AppendAll(ResetMemory(s), s.list);
    assert [] + s.list == s.list;
    assert r.list == s.list;
  }

  /** Clearing and then loading leaves the list empty. */
  lemma ClearThenLoad(s: State)
    ensures Load(ClearList(s)) == Ok(ClearList(s))
    ensures Load(ClearList(s)).value.list == []
  {
  }

  /** Loading a record array into an empty store gives one entry per record;
      loading it again duplicates them. */
  lemma LoadTwiceDuplicates(rs: seq<Record>)
    ensures Load(State([], Valid(rs))).Ok?
    ensures Load(State([], Valid(rs))).value.list == Decode(rs)
    ensures Load(Load(State([], Valid(rs))).value).Ok?
    ensures Load(Load(State([], Valid(rs))).value).value.list == Decode(rs) + Decode(rs)
  {
    EncodeDecode(rs);
  }
}

=== FILE: list_item.dfy ===
/** The to-do entry record (`LitsItem` in the application): an id, the
    entry text and a checked flag, with defaults and plain accessors. */
module ListItem {

  /** One to-do entry. `item` is the entry text, stored verbatim: no trimming,
      escaping or length check happens at this level. */
  datatype Item = Item(id: string, item: string, checked: bool)

  /** The constructor `new LitsItem(id = "", item = "", checked = false)`. */
  function NewItem(id: string := "", item: string := "", checked: bool := false): (r: Item)
    ensures r.id == id && r.item == item && r.checked == checked
  {
    Item(id, item, checked)
  }

  /** The `id` setter: only the id changes. */
  function SetId(it: Item, v: string): (r: Item)
    ensures r.id == v
    ensures r.item == it.item && r.checked == it.checked
  {
    it.(id := v)
  }

  /** The `item` setter: only the text changes, and it is kept as given. */
  function SetText(it: Item, v: string): (r: Item)
    ensures r.item == v
    ensures r.id == it.id && r.checked == it.checked
  {
    it.(item := v)
  }

  /** The `checked` setter: only the flag changes. */
  function SetChecked(it: Item, v: bool): (r: Item)
    ensures r.checked == v
    ensures r.id == it.id && r.item == it.item
  {
    it.(checked := v)
  }

  /** `item.checked = !item.checked`. */
  function Toggle(it: Item): (r: Item)
    ensures r.checked != it.checked
    ensures r.id == it.id && r.item == it.item
  {
    SetChecked(it, !it.checked)
  }

  /** The no-argument constructor yields an empty, unchecked entry. */
  lemma DefaultConstructor()
    ensures NewItem() == Item("", "", false)
    ensures NewItem().id == "" && NewItem().item == "" && !NewItem().checked
  {
  }

  /** Negating `checked` twice gives back the original entry. */
  lemma ToggleTwice(it: Item)
    ensures Toggle(Toggle(it)) == it
    ensures Toggle(it).checked == !it.checked
  {
  }

  /** Each setter followed by the matching getter returns exactly the value
      written, whatever text it is: empty, markup or any other characters. */
  lemma SetThenGet(it: Item, i: string, t: string, c: bool)
    ensures SetId(it, i).id == i
    ensures SetText(it, t).item == t
    ensures SetChecked(it, c).checked == c
    ensures SetText(SetId(SetChecked(it, c), i), t) == NewItem(i, t, c)
  {
  }
}

=== FILE: list_template.dfy ===
/** The view (`ListTemplate` in the application): renders the store into the
    rows of the `#listItems` container and turns the rows' checkbox and delete
    events back into store operations.

    A row is the data of one `<li class="item">`; DOM nodes, markup and event
    dispatch are not modelled. Row `i`'s handlers address entry
    `|list| - 1 - i` of the list they are given. That is the entry the row
    was built from while the rows render the current list
    (`Application.InStep`). */
module ListTemplate {
  import opened ListItem
  import opened FullList

  /** One rendered entry: the checkbox's id and checked state, the label's
      `htmlFor` and its text content. */
  datatype Row = Row(checkboxId: string, checked: bool, labelFor: string, labelText: string)

  /** The row built for one entry; the label text is set as plain text, so it
      is the entry text character for character. */
  function RowOf(it: Item): (row: Row)
    ensures row.checkboxId == it.id && row.labelFor == it.id
    ensures row.checked == it.checked
    ensures row.labelText == it.item
  {
    Row(it.id, it.checked, it.id, it.item)
  }

  /** `clear`: the container loses every child, whatever it held. */
  function Clear(container: seq<Row>): (r: seq<Row>)
    ensures |r| == 0
  {
    []
  }

  /** The rows for a list: one per entry, newest entry first. */
  function Render(list: seq<Item>): (rows: seq<Row>)
    ensures |rows| == |list|
    ensures forall i :: 0 <= i < |list| ==> rows[i] == RowOf(list[|list| - 1 - i])
    decreases |list|
  {
    if list == [] then []
    else [RowOf(list[|list| - 1])] + Render(list[..|list| - 1])
  }

  /** `render`: the container is cleared first, so its previous rows never
      survive and the result depends on the list alone. */
  function RenderInto(container: seq<Row>, list: seq<Item>): (rows: seq<Row>)
    ensures |rows| == |list|
    ensures forall i :: 0 <= i < |list| ==> rows[i] == RowOf(list[|list| - 1 - i])
  {
    var cleared := Clear(container);
    cleared + Render(list)
  }

  /** Rendering reverses store order: the rows of `a + b` are those of `b`
      followed by those of `a`. */
  lemma {:induction false} RenderConcat(a: seq<Item>, b: seq<Item>)
    ensures Render(a + b) == Render(b) + Render(a)
    decreases |b|
  {
    if b == [] {
      assert a + b == a;
    } else {
      var b' := b[..|b| - 1];
      assert (a + b)[..|a + b| - 1] == a + b';
      assert (a + b)[|a + b| - 1] == b[|b| - 1];
      RenderConcat(a, b');
    }
  }

  /** The entry added last is shown in row 0, above all earlier rows. */
  lemma NewestFirst(list: seq<Item>, it: Item)
    ensures Render(list + [it]) == [RowOf(it)] + Render(list)
  {
    RenderConcat(list, [it]);
  }

  /** The checkbox `change` handler of row `i`: negate the entry's `checked`
      flag and save; every other entry stays as it was. */
  function OnCheckboxChange(s: State, i: nat): (r: State)
    requires i < |s.list|
    ensures |r.list| == |s.list|
    ensures r.list[|s.list| - 1 - i] == Toggle(s.list[|s.list| - 1 - i])
    ensures forall j :: 0 <= j < |s.list| && j != |s.list| - 1 - i ==> r.list[j] == s.list[j]
    ensures Consistent(r)
  {
    var k := |s.list| - 1 - i;
    SetCheckedAt(s, k, !s.list[k].checked)
  }

  /** The handler does not re-render, and need not: the rows of the new list
      differ from the rows on screen only in row `i`'s checked state, which
      the checkbox itself already shows. */
  lemma CheckboxNeedsNoRerender(s: State, i: nat)
    requires i < |s.list|
    ensures var old_ := Render(s.list);
      Render(OnCheckboxChange(s, i).list) == old_[i := old_[i].(checked := !old_[i].checked)]
  {
    var n := |s.list|;
    var before := Render(s.list);
    var after := Render(OnCheckboxChange(s, i).list);
    var expected := before[i := before[i].(checked := !before[i].checked)];
    forall j | 0 <= j < n
      ensures after[j] == expected[j]
    {
      if j == i {
        assert after[j] == RowOf(Toggle(s.list[n - 1 - i]));
      } else {
        assert n - 1 - j != n - 1 - i;
      }
    }
  }

  /** The browser flips the checkbox before it fires `change`, so when the box
      showed the entry's state, the entry ends up equal to the box's new state,
      however many times this repeats. */
  lemma CheckboxTracksBox(s: State, i: nat, box: bool)
    requires i < |s.list|
    requires Render(s.list)[i].checked == !box
    ensures OnCheckboxChange(s, i).list[|s.list| - 1 - i].checked == box
    ensures Render(OnCheckboxChange(s, i).list)[i].checked == box
  {
  }

  /** Two changes on the same row give back the original list. */
  lemma CheckboxTwice(s: State, i: nat)
    requires i < |s.list|
    ensures OnCheckboxChange(OnCheckboxChange(s, i), i).list == s.list
  {
    var r := OnCheckboxChange(OnCheckboxChange(s, i), i);
    assert forall j :: 0 <= j < |s.list| ==> r.list[j] == s.list[j];
  }

  /** The delete button of row `i`: remove the entry's id from the store, then
      render again. */
  function OnDeleteClick(s: State, i: nat): (r: (State, seq<Row>))
    requires i < |s.list|
    ensures r.0.list == RemoveById(s.list, s.list[|s.list| - 1 - i].id)
    ensures |r.0.list| < |s.list|
    ensures Consistent(r.0)
    ensures r.1 == Render(r.0.list)
    ensures UniqueIds(s.list) ==>
      var k := |s.list| - 1 - i;
      r.0.list == s.list[..k] + s.list[k + 1..] && |r.1| == |s.list| - 1
  {
    var k := |s.list| - 1 - i;
    assert s.list[k] in s.list;
    assert UniqueIds(s.list) ==> RemoveById(s.list, s.list[k].id) == s.list[..k] + s.list[k + 1..] by {
      if UniqueIds(s.list) {
        RemoveUnique(s.list, k);
      }
    }
    var s' := RemoveItem(s, s.list[k].id);
    (s', Render(s'.list))
  }
}

=== FILE: wrappers.dfy ===
/** Failure-carrying result type shared by the to-do list model. */
module Wrappers {

  /** Either a successful value or the error that stopped the operation. */
  datatype Result<+R, +E> = Ok(value: R) | Err(error: E)
}
